=== FILE: README.md ===
# Scalper Trader decision engine — a Dafny model

This project models the decision logic of the Scalper Trader backend: the
`TechnicalAnalyzer` that turns an uploaded OHLC table or chart image into a
trading signal (BUY, SELL or HOLD with entry, take-profit, stop-loss and a
confidence percentage), the stand-alone position-size calculator, and the
input checks and arithmetic of the HTTP handlers that call them.

Modules, one per component:

- `Wrappers` — `Option` and `Result`. `None` stands for a NaN indicator value or a non-numeric cell.
- `Text` — ASCII lower-casing and Python's `str.strip()`, used on CSV headers and file names.
- `Domain` — the candle, the action, the pattern flags and the signal record. It also holds the uniform error record.
- `Levels` — support and resistance over the last 20 candles.
- `Scoring` — the six voting rules and the vote tally. Also the confidence formula and the price targets of the tabular path.
- `CsvInput` — the validation steps of `analyze_csv_data`. They run in this order: header normalisation (`NormalizeColumns`), then the checks of `CheckTable`: the required-column check, numeric filtering, then the 20-row minimum.
- `ChartImage` — the mean-angle classification of detected lines and the image-based signal.
- `Risk` — `calculate_position_size`.
- `Api` — the extension and timeframe whitelist and the routing in `analyze`. Also the rating range check in `feedback` and the risk calculator endpoint.

Points where the model pins down behaviour the code leaves implicit:

- A NaN indicator reading is `None`. Every comparison with it is false, so the rule that reads it abstains. A short series is therefore never an analysis error.
- The proximity rule divides by the current price. A zero price gives infinity or NaN, and the comparison is false, so no vote is cast. A negative price makes the ratio non-positive, so the price always counts as "near" support.
- After normalisation a required column may occur twice, for example from `c` and `close`. Selecting it then yields a frame and not a series, so the numeric conversion raises. The generic handler reports this as a "CSV analysis failed" error (`CsvInput.ColumnNotSeries`).
- The code never checks that `low <= close <= high`. The ordering `stop_loss <= entry <= take_profit` for BUY (and the reverse for SELL) therefore holds only when the last candle is well formed and its close is positive (`Scoring.SignalTargetsOrdered`).
- The risk endpoint does not check for a zero stop-loss. The division by zero is not caught and surfaces as HTTP 500.

## Model

| member | source | states |
|---|---|---|
| `Text.Strip` | technical_analysis.py:23 | the stripped header is the infix left after removing only leading and trailing whitespace, and it neither starts nor ends with whitespace |
| `Text.LowerStripNormal` | technical_analysis.py:23 | lower-casing then stripping yields a normal name, and it leaves an already normal name unchanged |
| `Text.Lower` | technical_analysis.py:23 | lower-casing keeps the length and maps each character through the ASCII lower-case mapping |
| `CsvInput.RenameSequentially` | technical_analysis.py:31-33 | after the pair-by-pair renames a name is either unchanged or the target of one of the pairs |
| `CsvInput.SequentialIsLookup` | technical_analysis.py:26-33 | applying the synonym renames one after another equals a single lookup, because no rename feeds a later one |
| `CsvInput.NormalizeColumns` | technical_analysis.py:23-33 | each header becomes the canonical name of its lower-cased, stripped form, and the header keeps its length |
| `CsvInput.NormalizeNameIdempotent` | technical_analysis.py:23-33 | cleaning up an already cleaned-up column name changes nothing |
| `CsvInput.NormalizeIdempotent` | technical_analysis.py:23-33 | normalising an already normalised header changes nothing |
| `CsvInput.Validate` | technical_analysis.py:23-48 | the format error occurs iff some price column has no raw header that cleans up to it, and an accepted table has at least 20 candles |
| `CsvInput.ValidateNormalisedHeader` | technical_analysis.py:23-48 | a table whose header was already cleaned up validates exactly as the original |
| `CsvInput.ToCandle` | technical_analysis.py:40-45 | a row yields a candle exactly when all four price cells are numeric, and the candle carries those values |
| `CsvInput.CleanRows` | technical_analysis.py:40-45 | every kept candle comes from a row with four numeric prices, and every such row's candle is kept |
| `CsvInput.CleanRowsAppend` | technical_analysis.py:45 | dropping rows preserves chronological order: cleaning a concatenation concatenates the cleaned parts |
| `CsvInput.CheckTable` | technical_analysis.py:35-48 | on the normalised header: "Invalid CSV format" iff a required column is missing; the duplicate-column failure iff all are present but one is repeated; "Insufficient data" iff fewer than 20 rows survive; otherwise the cleaned series of at least 20 candles |
| `CsvInput.AnalyzeCsv` | technical_analysis.py:16-56 | the result is an error exactly when validation fails, the error record is uniform and carries the failure's message, and on success the signal is the scoring engine's for the cleaned series, entered at the last close |
| `CsvInput.EnoughRowsNeverError` | technical_analysis.py:47-53 | with each price column present once and at least 20 numeric rows, the result is a technical signal whatever the indicator values, NaN included |
| `CsvInput.NineteenRowsInsufficient` | technical_analysis.py:47-48 | 19 numeric rows give exactly the "Insufficient data" error record |
| `CsvInput.MissingLowInvalid` | technical_analysis.py:35-38 | a header with no column normalising to `low` gives exactly the "Invalid CSV format" error record |
| `Levels.Tail` | technical_analysis.py:236-239 | the window is the last min(20, n) candles, in order |
| `Levels.Min` | technical_analysis.py:236 | the minimum is at most every element and equals one of them |
| `Levels.Max` | technical_analysis.py:239 | the maximum is at least every element and equals one of them |
| `Levels.FindSupportResistance` | technical_analysis.py:230-241 | support is at most every low and resistance at least every high in the last min(20, n) candles, each attained by one of them; an empty series has no levels |
| `Levels.LevelsBracketLastClose` | technical_analysis.py:236-239 | when the last candle is well formed, support is at most its close and resistance is at least its close |
| `Scoring.TrendRule` | technical_analysis.py:137-143 | trend votes BUY iff all four averages are numbers with sma20 > sma50 and ema12 > ema26, and SELL iff all are numbers with both reversed |
| `Scoring.RsiRule` | technical_analysis.py:145-151 | RSI votes BUY iff it is a number below 30 and SELL iff it is a number above 70 |
| `Scoring.MacdRule` | technical_analysis.py:153-159 | MACD votes BUY iff the line is above its signal and above 0, and SELL iff it is below both, NaN making either false |
| `Scoring.BollingerRule` | technical_analysis.py:161-167 | Bollinger votes BUY iff the price is below a numeric lower band, and SELL iff it is not and the price is above a numeric upper band |
| `Scoring.StochasticRule` | technical_analysis.py:169-175 | stochastic votes BUY iff %K and %D are both numbers below 20 and SELL iff both are numbers above 80 |
| `Scoring.NearMeaning` | technical_analysis.py:178-181 | for a positive price, a level is near iff it lies strictly between 0.99 and 1.01 times the price; a zero price is near nothing and a negative price is near every level |
| `Scoring.ProximityRule` | technical_analysis.py:177-183 | proximity votes BUY iff the price is near support and SELL iff it is near resistance but not near support |
| `Scoring.CountsBounded` | technical_analysis.py:186-187 | buy and sell votes together never exceed the number of votes cast |
| `Scoring.AtMostSixVotes` | technical_analysis.py:137-187 | the six rules cast at most six directional votes in total |
| `Scoring.NearBothLevelsVotesBuy` | technical_analysis.py:177-183 | a price within 1% of both support and resistance casts only a BUY proximity vote |
| `Scoring.AbsentIndicatorAbstains` | technical_analysis.py:137-175 | a rule abstains when a reading both its branches need is NaN: any of the four averages for trend, RSI, either MACD line, either stochastic line, and both Bollinger bands together, since one NaN band leaves the other band's test live |
| `Scoring.NoIndicatorsOnlyProximity` | technical_analysis.py:137-197 | with every indicator NaN, BUY iff the price is near support, SELL iff it is near resistance but not near support, and a directional signal has confidence 68 |
| `Scoring.Decide` | technical_analysis.py:189-197 | BUY iff buys > sells, SELL iff sells > buys, HOLD iff the counts tie, including zero votes |
| `Scoring.DecideMirror` | technical_analysis.py:189-197 | swapping the two counts swaps BUY and SELL and keeps HOLD |
| `Scoring.DirectionalConfidence` | technical_analysis.py:191 | confidence is at most 95, at least 68 once one vote wins, 60 + 8k below five votes, and exactly 95 from five votes on |
| `Scoring.ConfidenceMonotone` | technical_analysis.py:191 | more winning votes never lower the confidence |
| `Scoring.Confidence` | technical_analysis.py:189-197 | HOLD has confidence 50; BUY and SELL take the winning side's count and lie in [68, 95] |
| `Scoring.ExtraBuyVoteKeepsBuy` | technical_analysis.py:186-191 | turning any one vote into a BUY vote keeps a BUY a BUY and never lowers its confidence |
| `Scoring.Targets` | technical_analysis.py:199-210 | BUY takes profit at the nearer of resistance and 2% up and stops at the nearer of support and 1.5% down; SELL mirrors this; HOLD puts both at entry |
| `Scoring.TargetsStrictOrdering` | technical_analysis.py:200-207 | with 0 < entry and support < entry < resistance: BUY has stop < entry < target, SELL has target < entry < stop |
| `Scoring.TargetsOrdering` | technical_analysis.py:200-207 | the same ordering, non-strict, when the entry may touch a level |
| `Scoring.GenerateSignal` | technical_analysis.py:127-228 | the signal is entered at the current price; its action follows the raw vote counts both ways; HOLD has confidence 50, BUY has min(95, 60 + 8 x buy votes) and SELL min(95, 60 + 8 x sell votes); take-profit and stop-loss are the action's targets from support and resistance |
| `Scoring.CalculateSignal` | technical_analysis.py:112-123 | the last close is both the entry and the price the rules vote with; the support and resistance of the 20-candle window feed the proximity vote and the targets and are reported; action, confidence and targets follow the vote counts at that price |
| `Scoring.TwoBuyVotesExample` | technical_analysis.py:137-207 | trend and RSI voting BUY alone give BUY at 76 with target 102 and stop 98.5 at price 100 |
| `Scoring.SignalTargetsOrdered` | technical_analysis.py:199-210 | for a well-formed last candle with a positive close, BUY has stop <= entry <= target and SELL has target <= entry <= stop |
| `ChartImage.DetectPatterns` | technical_analysis.py:254-274 | the flags count the lines; bullish iff the mean `arctan2` angle in image coordinates exceeds 10 degrees and bearish iff it is below -10; never both; no lines gives neither |
| `ChartImage.AllAboveIsBullish` | technical_analysis.py:268-270 | if every line's angle in image coordinates exceeds 10 degrees, the chart is bullish |
| `ChartImage.AllBelowIsBearish` | technical_analysis.py:271-272 | if every line's angle in image coordinates is below -10 degrees, the chart is bearish |
| `ChartImage.MirrorSwapsPatterns` | technical_analysis.py:268-272 | negating every angle swaps the bullish and bearish flags |
| `ChartImage.MeanFifteenExample` | technical_analysis.py:268-270 | lines at angles 10 and 20 degrees (mean 15) are bullish |
| `ChartImage.ImageSignal` | technical_analysis.py:276-314 | bullish means BUY at 75 with target +2.5% and stop -1.5%; bearish alone means SELL at 75 with target -2.5% and stop +1.5%; neither means HOLD at 60 with both levels at entry |
| `ChartImage.BasePriceOnlyMovesLevels` | technical_analysis.py:279-290 | the sampled base price never changes the action or the confidence |
| `ChartImage.ImageTargetsOrdered` | technical_analysis.py:292-303 | with a positive base price, BUY has stop < entry < target and SELL has target < entry < stop |
| `ChartImage.AnalyzeChartImage` | technical_analysis.py:58-75 | an undecodable image gives the uniform error "Could not load image file"; otherwise the signal is the image signal of the detected flags priced off the base price, entry lies in [1800, 2100), and the targets are ordered |
| `Domain.ErrorSignal` | technical_analysis.py:316-327 | the error record is a HOLD with zero prices, zero confidence and the error analysis type, carrying the message |
| `Risk.RiskAmount` | utils/risk.py:2 | the amount is the account times the risk percentage over 100, and the whole account at 100% |
| `Risk.RiskAmountBounds` | main.py:211-215 | a positive account risking a percentage in (0, 100] risks a positive amount that is at most the account |
| `Risk.PositionSize` | utils/risk.py:1-4 | losing abs(stop_loss) on each unit of the position loses exactly account_size * risk_pct / 100 |
| `Risk.SignIndependent` | utils/risk.py:3 | the size is the same for stop_loss and -stop_loss |
| `Risk.SizeNonNegative` | utils/risk.py:2-3 | a non-negative account and risk percentage give a non-negative size |
| `Risk.MonotoneInAccount` | utils/risk.py:2-3 | a larger account never gives a smaller size |
| `Risk.MonotoneInRisk` | utils/risk.py:2-3 | a larger risk percentage never gives a smaller size |
| `Risk.AntitoneInStop` | utils/risk.py:2-3 | a wider stop never gives a larger size |
| `Api.AfterLastDot` | main.py:76 | the extension is the dot-free suffix after the last dot, or the whole name when there is no dot |
| `Api.Extension` | main.py:76 | the extension is the lower-cased, dot-free suffix of the name that follows its last dot, or the whole name lower-cased when it has no dot |
| `Api.ExtensionOfDottedName` | main.py:76 | for a name of the form base + "." + ext with a dot-free ext, the extension is ext lower-cased |
| `Api.ValidateUpload` | main.py:72-83 | the upload is accepted iff the name is non-empty, its extension is jpg/jpeg/png/csv and the timeframe is one of 1m..1d; csv routes to the tabular analyzer; every rejection is a 400, checked in the order name, extension, timeframe, each with its own detail |
| `Api.UpperCaseExtensionAccepted` | main.py:76-77 | `chart.PNG` routes to the image analyzer and `prices.CSV` to the tabular one |
| `Api.RunAnalyzer` | main.py:94-97 | the result is exactly the chosen analyzer's: a csv upload goes to the tabular analysis and fails iff its table does not validate; an image goes to the chart analysis and fails iff it cannot be decoded; failures are the uniform error record, and successes carry the timeframe and the analysis type of their route |
| `Api.Analyze` | main.py:71-101 | validation failures pass through; a csv upload succeeds iff the table validates and an image iff it decodes; success returns the routed analyzer's signal unchanged, which is never an error record and whose analysis type follows the extension; an analysis error becomes a 400 whose detail is the analyzer's message: the CSV validation failure's message, or "Could not load image file" |
| `Api.ValidateRating` | main.py:183-184 | a rating is accepted iff it lies in 1..5, and otherwise rejected with a 400 |
| `Api.RiskCalculator` | main.py:204-241 | success iff the account is positive, the risk lies in (0, 100] and the stop-loss is non-zero; a 400 iff the account is not positive or the risk is outside (0, 100]; a 500 iff the input is otherwise valid and the stop-loss is zero; on success the inputs are echoed, risk amount = account x risk / 100 and lies in (0, account], the position loses exactly the risk amount at the stop, max loss = risk amount, profit = 2 x max loss with ratio 2.0, and conservative and aggressive are 0.5 and 1.5 times the normal size |
| `Api.RecommendationsOrdered` | main.py:224-225 | the conservative, normal and aggressive sizes are strictly increasing and centred on the normal size |
| `Api.RiskEndpointMatchesCalculator` | main.py:215-216 | the endpoint's position size equals the stand-alone calculator's unrounded size |

## Left out

- Indicator mathematics: the SMA, EMA, RSI, MACD, Bollinger and stochastic series come from the `ta` library, which is a foreign call over floating point. The model takes them as a function `indicators` from the cleaned series to the last value of each series. A NaN value is `None`.
- Image processing: the image decode, colour conversion, Canny edges, the Hough line detector and `arctan2` are not modelled. The model takes the line angles in degrees as input, with `None` for an image that cannot be decoded and an empty sequence for "no lines".
- Random base price: the uniform draw in [1800, 2100) of the image path is the parameter `basePrice`.
- CSV parsing: pandas' `read_csv` is not modelled. This covers number parsing of text cells and renaming of exact duplicate header names. A table arrives as header names and cells that are already numbers, non-numeric text or blank.
- Volume and time columns: they are renamed but never used by the decision, so `Candle` has no volume.
- Generic exceptions: the catch-all exception handlers are not modelled, except for the duplicate-column failure described above.
- Floating point: all arithmetic is exact over `real`, so the multipliers 1.02, 0.985 and so on are exact. Infinite inputs are not modelled. NaN inputs are not modelled either: a NaN account size or risk percentage passes the guard at main.py:211, because every comparison with NaN is false, whereas `Api.RiskCalculator` over `real` rejects only the values that guard names.
- Text.Lower: lower-cases ASCII letters only. No other character lower-cases to a single letter occurring in the column names or extensions the code compares against, so every accept/reject decision is the same.
- Unused values: the rolling highs and lows at technical_analysis.py:232-233 and the `confidence_factors` weights never reach the output.
- JSON encoding of the response: below 50 candles `sma_50` is NaN and is returned among the indicator readings. The web framework's JSON encoder is not part of this model; if it refuses NaN, such a response fails as an HTTP 500 even though `Api.Analyze` returns a signal. `Api.Analyze` therefore says what the handler decides, not that the response is delivered.
- HTTP and storage plumbing in main.py: saving the upload, the Firestore signal and feedback writes, the caption and placeholder chart URL, file clean-up, the authenticated user override in `feedback`, CORS, and the random market analysis.
- main_simple.py: its rating and risk checks are the same as main.py's, and its `analyze` is a random mock.
- Persistence, notification and image annotation: firebase_service.py, firebase/firestore.py, bots/ and analysis/annotate.py are I/O. analysis/image_analyzer.py, analysis/csv_analyzer.py and analysis/logic_engine.py are hard-coded stubs.
- Scoring.CalculateSignal: requires a non-empty series, because reading the last close of an empty frame raises. It is only reached with at least 20 candles.
- ChartImage.AnalyzeChartImage: requires the base price to lie in the range the draw produces.
- Scoring.GenerateSignal: entry, take-profit, stop-loss and the reported readings are stated before `round(…, 2)`. Confidence is the number that the record renders as "N%".
- ChartImage.ImageSignal: the price levels are stated before `round(…, 2)`.
- Risk.PositionSize: states the size before `round(…, 2)`. It also requires a non-zero stop-loss: there the source divides by zero and raises `ZeroDivisionError`, which a total function over `real` cannot return. The only caller in the model, `Api.RiskCalculator`, handles that case itself as the HTTP 500 the uncaught exception becomes.
- Api.RiskCalculator: all amounts are stated before `round(…, 2)` and `round(…, 4)`.
- Api.Analyze: returns the signal only, not the caption, chart URL or save status that accompany it.

=== FILE: api.dfy ===
/** The decisions the HTTP handlers take before and after calling the
    analyzer: upload and timeframe validation, routing by extension,
    turning an error record into a rejection, the rating range check, and
    the risk calculator's arithmetic. */
module Api {
  import opened Wrappers
  import opened Text
  import opened Domain
  import CsvInput
  import Scoring
  import ChartImage
  import Risk

  datatype HttpError = HttpError(status: nat, detail: string)

  const BadRequest: nat := 400
  const ServerError: nat := 500

  const AllowedExtensions: seq<string> := ["jpg", "jpeg", "png", "csv"]
  const Timeframes: seq<string> := ["1m", "5m", "15m", "30m", "1h", "4h", "1d"]

  /** The text after the last '.', or the whole name when it has none. */
  function AfterLastDot(name: string): (r: string)
    ensures |r| <= |name| && r == name[|name| - |r|..]
    ensures '.' !in r
    ensures |r| < |name| ==> name[|name| - |r| - 1] == '.'
  {
    if |name| == 0 then ""
    else if name[|name| - 1] == '.' then ""
    else AfterLastDot(name[..|name| - 1]) + [name[|name| - 1]]
  }

  /** The lower-cased extension of an upload's file name. */
  function Extension(filename: string): (r: string)
    ensures |r| <= |filename| && '.' !in r
    ensures forall k :: 0 <= k < |r| ==> r[k] == LowerChar(filename[|filename| - |r| + k])
    ensures |r| < |filename| ==> filename[|filename| - |r| - 1] == '.'
  {
    Lower(AfterLastDot(filename))
  }

  /** A dot-free final component is read back as the extension, whatever
      comes before the dot. */
  lemma {:induction false} ExtensionOfDottedName(base: string, ext: string)
    requires '.' !in ext
    ensures Extension(base + "." + ext) == Lower(ext)
  {
    var name := base + "." + ext;
    assert name[|base|] == '.';
    assert AfterLastDot(name) == ext;
  }

  /** Which analyzer an accepted upload goes to. */
  datatype Analyzer = Tabular | ChartImg

  /** The checks of the analyze endpoint before the file is touched, in
      their order: a file name, a supported extension, a known timeframe. */
  function ValidateUpload(filename: string, timeframe: string): (r: Result<Analyzer, HttpError>)
    ensures r.Ok? <==> |filename| > 0 && Extension(filename) in AllowedExtensions && timeframe in Timeframes
    ensures r == Ok(Tabular) <==> |filename| > 0 && Extension(filename) == "csv" && timeframe in Timeframes
    ensures r.Err? ==> r.error.status == BadRequest
    ensures |filename| == 0 ==> r == Err(HttpError(BadRequest, "No file provided"))
    ensures |filename| > 0 && Extension(filename) !in AllowedExtensions ==>
              r == Err(HttpError(BadRequest, "Unsupported file type. Use JPG, PNG, or CSV."))
    ensures |filename| > 0 && Extension(filename) in AllowedExtensions && timeframe !in Timeframes ==>
              r == Err(HttpError(BadRequest, "Invalid timeframe. Use: 1m, 5m, 15m, 30m, 1h, 4h, 1d"))
  {
    if |filename| == 0 then Err(HttpError(BadRequest, "No file provided"))
    else if Extension(filename) !in AllowedExtensions then
      Err(HttpError(BadRequest, "Unsupported file type. Use JPG, PNG, or CSV."))
    else if timeframe !in Timeframes then
      Err(HttpError(BadRequest, "Invalid timeframe. Use: 1m, 5m, 15m, 30m, 1h, 4h, 1d"))
    else if Extension(filename) == "csv" then Ok(Tabular)
    else Ok(ChartImg)
  }

  /** Upper-case extensions are accepted like lower-case ones. */
  lemma UpperCaseExtensionAccepted()
    ensures ValidateUpload("chart.PNG", "1h") == Ok(ChartImg)
    ensures ValidateUpload("prices.CSV", "4h") == Ok(Tabular)
  {
    assert Lower("PNG") == "png" && Lower("CSV") == "csv";
    assert AfterLastDot("chart.PNG") == "PNG" by {
      ExtensionOfDottedName("chart", "PNG");
      assert "chart" + "." + "PNG" == "chart.PNG";
    }
    assert AfterLastDot("prices.CSV") == "CSV" by {
      ExtensionOfDottedName("prices", "CSV");
      assert "prices" + "." + "CSV" == "prices.CSV";
    }
  }

  /** What an upload contains, as each analyzer sees it: the table the CSV
      reader produces, and the angles of the lines found in the decoded
      image (`None` when the image cannot be decoded). */
  datatype Upload = Upload(table: CsvInput.Table, lines: Option<seq<real>>)

  /** The analysis a validated upload is routed to. */
  function RunAnalyzer(analyzer: Analyzer, upload: Upload, timeframe: string,
                       indicators: seq<Candle> -> Scoring.Indicators, basePrice: real): (s: Signal)
    requires ChartImage.BaseLow <= basePrice < ChartImage.BaseHigh
    ensures analyzer == Tabular ==> s == CsvInput.AnalyzeCsv(upload.table, timeframe, indicators)
    ensures analyzer == ChartImg ==> s == ChartImage.AnalyzeChartImage(upload.lines, basePrice, timeframe)
    ensures analyzer == Tabular ==> (s.IsError() <==> CsvInput.Validate(upload.table).Err?)
    ensures analyzer == ChartImg ==> (s.IsError() <==> upload.lines.None?)
    ensures s.IsError() ==> UniformError(s) && s.message.Some?
    ensures !s.IsError() ==> s.timeframe == Some(timeframe)
    ensures !s.IsError() ==> (s.analysisType == TechnicalIndicators <==> analyzer == Tabular)
    ensures !s.IsError() ==> (s.analysisType == ChartPattern <==> analyzer == ChartImg)
  {
    match analyzer
    case Tabular => CsvInput.AnalyzeCsv(upload.table, timeframe, indicators)
    case ChartImg => ChartImage.AnalyzeChartImage(upload.lines, basePrice, timeframe)
  }

  /** The analyze endpoint: validation, routing, and the rejection of an
      error record with its message. */
  function Analyze(filename: string, timeframe: string, upload: Upload,
                   indicators: seq<Candle> -> Scoring.Indicators, basePrice: real): (r: Result<Signal, HttpError>)
    requires ChartImage.BaseLow <= basePrice < ChartImage.BaseHigh
    ensures ValidateUpload(filename, timeframe).Err? ==> r == Err(ValidateUpload(filename, timeframe).error)
    ensures r.Ok? ==> r.value == RunAnalyzer(ValidateUpload(filename, timeframe).value, upload, timeframe, indicators, basePrice)
    ensures r.Ok? ==> !r.value.IsError() && r.value.timeframe == Some(timeframe)
    ensures r.Ok? ==> (r.value.analysisType == TechnicalIndicators <==> Extension(filename) == "csv")
    ensures r.Ok? ==> (r.value.analysisType == ChartPattern <==> Extension(filename) != "csv")
    ensures ValidateUpload(filename, timeframe) == Ok(Tabular) ==>
              (r.Ok? <==> CsvInput.Validate(upload.table).Ok?)
    ensures ValidateUpload(filename, timeframe) == Ok(ChartImg) ==> (r.Ok? <==> upload.lines.Some?)
    ensures ValidateUpload(filename, timeframe) == Ok(Tabular) && r.Err? ==>
              r.error.detail == CsvInput.Message(CsvInput.Validate(upload.table).error)
    ensures ValidateUpload(filename, timeframe) == Ok(ChartImg) && r.Err? ==>
              r.error.detail == "Could not load image file"
    ensures r.Err? ==> r.error.status == BadRequest
  {
    match ValidateUpload(filename, timeframe)
    case Err(e) => Err(e)
    case Ok(analyzer) =>
      var signal := RunAnalyzer(analyzer, upload, timeframe, indicators, basePrice);
      if signal.IsError() then Err(HttpError(BadRequest, signal.message.value))
      else Ok(signal)
  }

  /** The feedback endpoint accepts ratings from 1 to 5 only. */
  function ValidateRating(rating: int): (r: Result<int, HttpError>)
    ensures r.Ok? <==> 1 <= rating <= 5
    ensures r.Ok? ==> r.value == rating
    ensures r.Err? ==> r.error == HttpError(BadRequest, "Rating must be between 1 and 5")
  {
    if rating < 1 || rating > 5 then Err(HttpError(BadRequest, "Rating must be between 1 and 5"))
    else Ok(rating)
  }

  /** The risk calculator's answer, before rounding. */
  datatype RiskReport = RiskReport(
    accountSize: real, riskPct: real, riskAmount: real, stopLoss: real,
    positionSize: real, maxLoss: real, potentialProfit: real, rewardRisk: real,
    conservative: real, normal: real, aggressive: real)

  const RewardRiskRatio: real := 2.0

  /** The risk endpoint. Non-positive accounts and risk percentages outside
      (0, 100] are rejected; a zero stop distance is not checked and the
      division by zero surfaces as an internal server error. */
  function RiskCalculator(accountSize: real, stopLoss: real, riskPct: real): (r: Result<RiskReport, HttpError>)
    ensures r.Err? && r.error.status == BadRequest <==> accountSize <= 0.0 || riskPct <= 0.0 || riskPct > 100.0
    ensures r.Err? && r.error.status == ServerError <==>
              accountSize > 0.0 && 0.0 < riskPct <= 100.0 && stopLoss == 0.0
    ensures r.Ok? <==> accountSize > 0.0 && 0.0 < riskPct <= 100.0 && stopLoss != 0.0
    ensures r.Ok? ==> var rep := r.value;
              && rep.accountSize == accountSize && rep.riskPct == riskPct && rep.stopLoss == stopLoss
              && rep.riskAmount == Risk.RiskAmount(accountSize, riskPct)
              && 0.0 < rep.riskAmount <= accountSize
              && rep.positionSize > 0.0
              && rep.positionSize * Risk.Abs(stopLoss) == rep.riskAmount
              && rep.maxLoss == rep.riskAmount
              && rep.potentialProfit == RewardRiskRatio * rep.maxLoss
              && rep.rewardRisk == RewardRiskRatio
              && rep.normal == rep.positionSize
              && rep.conservative == 0.5 * rep.normal && rep.aggressive == 1.5 * rep.normal
  {
    if accountSize <= 0.0 || riskPct <= 0.0 || riskPct > 100.0 then
      Err(HttpError(BadRequest, "Invalid input values"))
    else if stopLoss == 0.0 then
      Err(HttpError(ServerError, "Internal Server Error"))
    else
      var riskAmount := Risk.RiskAmount(accountSize, riskPct);
      var positionSize := Risk.PositionSize(accountSize, stopLoss, riskPct);
      Risk.RiskAmountBounds(accountSize, riskPct);
      assert positionSize > 0.0 by {
        assert positionSize * Risk.Abs(stopLoss) == riskAmount;
      }
      Ok(RiskReport(accountSize, riskPct, riskAmount, stopLoss, positionSize,
                    riskAmount, riskAmount * RewardRiskRatio, RewardRiskRatio,
                    positionSize * 0.5, positionSize, positionSize * 1.5))
  }

  /** The three recommended sizes are strictly ordered and centred on the
      normal size. */
  lemma RecommendationsOrdered(accountSize: real, stopLoss: real, riskPct: real)
    requires RiskCalculator(accountSize, stopLoss, riskPct).Ok?
    ensures var rep := RiskCalculator(accountSize, stopLoss, riskPct).value;
            && rep.conservative < rep.normal < rep.aggressive
            && rep.conservative + rep.aggressive == 2.0 * rep.normal
  {
  }

  /** The endpoint's position size is the one the stand-alone calculator
      computes, before rounding. */
  lemma RiskEndpointMatchesCalculator(accountSize: real, stopLoss: real, riskPct: real)
    requires RiskCalculator(accountSize, stopLoss, riskPct).Ok?
    ensures stopLoss != 0.0
    ensures RiskCalculator(accountSize, stopLoss, riskPct).value.positionSize
            == Risk.PositionSize(accountSize, stopLoss, riskPct)
  {
  }
}

=== FILE: chart_image.dfy ===
/** The image path: line angles become pattern flags, and pattern flags
    become a signal priced off a sampled base price. Line detection itself
    (edge detection, the Hough transform, the arctangent) is outside the
    model; its output is the sequence of line angles in degrees, each the
    `arctan2` of a segment's endpoint differences in image coordinates,
    where y grows downwards and the endpoint order is the detector's. */
module ChartImage {
  import opened Wrappers
  import opened Domain

  /** Mean angle, in degrees, above which the chart counts as bullish and
      below whose negation it counts as bearish. */
  const SlopeThreshold: real := 10.0

  function Sum(angles: seq<real>): real {
    if |angles| == 0 then 0.0 else angles[0] + Sum(angles[1..])
  }

  function Mean(angles: seq<real>): real
    requires |angles| > 0
  {
    Sum(angles) / (|angles| as real)
  }

  /** Pattern flags from the detected lines: a mean angle above the
      threshold is bullish, one below its negation is bearish, and no lines
      at all is neither. */
  function DetectPatterns(angles: seq<real>): (p: PatternFlags)
    ensures p.trendLines == |angles|
    ensures p.bullish <==> |angles| > 0 && Mean(angles) > SlopeThreshold
    ensures p.bearish <==> |angles| > 0 && Mean(angles) < -SlopeThreshold
    ensures !(p.bullish && p.bearish)
    ensures |angles| == 0 ==> !p.bullish && !p.bearish
  {
    if |angles| == 0 then PatternFlags(0, false, false)
    else if Mean(angles) > SlopeThreshold then PatternFlags(|angles|, true, false)
    else if Mean(angles) < -SlopeThreshold then PatternFlags(|angles|, false, true)
    else PatternFlags(|angles|, false, false)
  }

  lemma {:induction false} SumAbove(angles: seq<real>, bound: real)
    requires forall k :: 0 <= k < |angles| ==> angles[k] > bound
    ensures |angles| > 0 ==> Sum(angles) > bound * (|angles| as real)
    ensures |angles| == 0 ==> Sum(angles) == 0.0
  {
    if |angles| > 0 {
      SumAbove(angles[1..], bound);
      assert bound * (|angles| as real) == bound + bound * (|angles[1..]| as real);
    }
  }

  lemma {:induction false} SumBelow(angles: seq<real>, bound: real)
    requires forall k :: 0 <= k < |angles| ==> angles[k] < bound
    ensures |angles| > 0 ==> Sum(angles) < bound * (|angles| as real)
  {
    if |angles| > 0 {
      SumBelow(angles[1..], bound);
      assert bound * (|angles| as real) == bound + bound * (|angles[1..]| as real);
    }
  }

  /** If every detected line's angle exceeds the threshold, the chart is
      bullish. */
  lemma AllAboveIsBullish(angles: seq<real>)
    requires |angles| > 0
    requires forall k :: 0 <= k < |angles| ==> angles[k] > SlopeThreshold
    ensures DetectPatterns(angles).bullish
  {
    SumAbove(angles, SlopeThreshold);
  }

  /** If every detected line's angle lies below the negated threshold, the
      chart is bearish. */
  lemma AllBelowIsBearish(angles: seq<real>)
    requires |angles| > 0
    requires forall k :: 0 <= k < |angles| ==> angles[k] < -SlopeThreshold
    ensures DetectPatterns(angles).bearish
  {
    SumBelow(angles, -SlopeThreshold);
  }

  function Negate(angles: seq<real>): (r: seq<real>)
    ensures |r| == |angles| && forall k :: 0 <= k < |angles| ==> r[k] == -angles[k]
  {
    seq(|angles|, k requires 0 <= k < |angles| => -angles[k])
  }

  lemma {:induction false} SumNegate(angles: seq<real>)
    ensures Sum(Negate(angles)) == -Sum(angles)
  {
    if |angles| > 0 {
      assert Negate(angles)[1..] == Negate(angles[1..]);
      SumNegate(angles[1..]);
    }
  }

  /** Negating every angle (mirroring the chart top to bottom) swaps
      bullish and bearish. */
  lemma MirrorSwapsPatterns(angles: seq<real>)
    ensures DetectPatterns(Negate(angles)).bullish == DetectPatterns(angles).bearish
    ensures DetectPatterns(Negate(angles)).bearish == DetectPatterns(angles).bullish
  {
    SumNegate(angles);
    if |angles| > 0 {
      var n := |angles| as real;
      assert Mean(Negate(angles)) == (-Sum(angles)) / n == -(Sum(angles) / n);
    }
  }

  /** Two lines at 10 and 20 degrees average 15: bullish. */
  lemma MeanFifteenExample()
    ensures DetectPatterns([10.0, 20.0]) == PatternFlags(2, true, false)
  {
    assert Sum([10.0, 20.0]) == 30.0 by {
      assert [10.0, 20.0][1..] == [20.0];
      assert [20.0][1..] == [];
    }
  }

  const PatternConfidence: nat := 75
  const NeutralConfidence: nat := 60

  /** The signal for a set of pattern flags, priced off `basePrice`. A
      bullish chart buys at 75% confidence targeting 2.5% up with a 1.5% stop;
      a bearish one sells at 75% targeting 2.5% down with a 1.5% stop;
      otherwise it holds at 60% with both levels at entry. */
  function ImageSignal(p: PatternFlags, basePrice: real, timeframe: string): (s: Signal)
    ensures !s.IsError() && s.analysisType == ChartPattern && s.details == Patterns(p)
    ensures s.timeframe == Some(timeframe) && s.entry == basePrice
    ensures s.action == Buy <==> p.bullish
    ensures s.action == Sell <==> !p.bullish && p.bearish
    ensures s.confidence == if s.action == Hold then NeutralConfidence else PatternConfidence
    ensures s.action == Buy ==> s.takeProfit == basePrice * 1.025 && s.stopLoss == basePrice * 0.985
    ensures s.action == Sell ==> s.takeProfit == basePrice * 0.975 && s.stopLoss == basePrice * 1.015
    ensures s.action == Hold ==> s.takeProfit == basePrice && s.stopLoss == basePrice
  {
    var (action, confidence) :=
      if p.bullish then (Buy, PatternConfidence)
      else if p.bearish then (Sell, PatternConfidence)
      else (Hold, NeutralConfidence);
    var (tp, sl) :=
      match action
      case Buy => (basePrice * 1.025, basePrice * 0.985)
      case Sell => (basePrice * 0.975, basePrice * 1.015)
      case Hold => (basePrice, basePrice);
    Signal(action, basePrice, tp, sl, confidence, Some(timeframe), Patterns(p), ChartPattern, None)
  }

  /** The sampled base price decides the price levels only: two draws give
      the same action and confidence. */
  lemma BasePriceOnlyMovesLevels(p: PatternFlags, a: real, b: real, timeframe: string)
    ensures ImageSignal(p, a, timeframe).action == ImageSignal(p, b, timeframe).action
    ensures ImageSignal(p, a, timeframe).confidence == ImageSignal(p, b, timeframe).confidence
  {
  }

  /** With a positive base price, a BUY stops below and targets above the
      entry, and a SELL the other way round. */
  lemma ImageTargetsOrdered(p: PatternFlags, basePrice: real, timeframe: string)
    requires basePrice > 0.0
    ensures var s := ImageSignal(p, basePrice, timeframe);
            && (s.action == Buy ==> s.stopLoss < s.entry < s.takeProfit)
            && (s.action == Sell ==> s.takeProfit < s.entry < s.stopLoss)
  {
  }

  /** Lowest and highest base price the placeholder price source draws. */
  const BaseLow: real := 1800.0
  const BaseHigh: real := 2100.0

  /** `analyze_chart_image`: an image that cannot be decoded (`None`) is an
      error; otherwise the detected line angles are classified and priced.
      `basePrice` is the uniform draw from [1800, 2100). */
  function AnalyzeChartImage(lines: Option<seq<real>>, basePrice: real, timeframe: string): (s: Signal)
    requires BaseLow <= basePrice < BaseHigh
    ensures s.IsError() <==> lines.None?
    ensures s.IsError() ==> UniformError(s) && s.message == Some("Could not load image file")
    ensures lines.Some? ==> s.details == Patterns(DetectPatterns(lines.value))
    ensures lines.Some? ==> s == ImageSignal(DetectPatterns(lines.value), basePrice, timeframe)
    ensures lines.Some? ==> BaseLow <= s.entry < BaseHigh
    ensures s.action == Buy ==> s.stopLoss < s.entry < s.takeProfit
    ensures s.action == Sell ==> s.takeProfit < s.entry < s.stopLoss
  {
    match lines
    case None => ErrorSignal("Could not load image file")
    case Some(angles) => ImageSignal(DetectPatterns(angles), basePrice, timeframe)
  }
}

=== FILE: csv_input.dfy ===
/** The tabular front end: header normalisation, the required-column check,
    numeric coercion with row dropping, the minimum-length check, and the
    hand-over to the scoring engine. */
module CsvInput {
  import opened Wrappers
  import opened Text
  import opened Domain
  import Scoring

  /** A cell as the CSV reader delivers it: a number, a text that is not a
      number, or nothing. */
  datatype Cell = Num(value: real) | NonNumeric(text: string) | Blank

  /** A table read from a CSV upload; a row shorter than the header reads as
      blank in its missing columns. */
  datatype Table = Table(columns: seq<string>, rows: seq<seq<Cell>>)

  /** Header synonyms, renamed one pair after the other. */
  const ColumnMapping: seq<(string, string)> := [
    ("timestamp", "time"), ("datetime", "time"), ("date", "time"),
    ("o", "open"), ("h", "high"), ("l", "low"), ("c", "close"), ("v", "volume")]

  const Required: seq<string> := ["open", "high", "low", "close"]

  /** Fewest cleaned candles an analysis accepts. */
  const MinCandles: nat := 20

  /** The renames applied to one column name in mapping order. */
  function RenameSequentially(name: string, pairs: seq<(string, string)>): (r: string)
    ensures r == name || exists k :: 0 <= k < |pairs| && r == pairs[k].1
    decreases |pairs|
  {
    if |pairs| == 0 then name
    else RenameSequentially(if name == pairs[0].0 then pairs[0].1 else name, pairs[1..])
  }

  /** The target of the first pair whose source is `name`, or `name` itself. */
  function Lookup(pairs: seq<(string, string)>, name: string): (r: string)
    ensures r == name || exists k :: 0 <= k < |pairs| && r == pairs[k].1
  {
    if |pairs| == 0 then name
    else if pairs[0].0 == name then pairs[0].1
    else Lookup(pairs[1..], name)
  }

  predicate IsSource(pairs: seq<(string, string)>, name: string) {
    exists k :: 0 <= k < |pairs| && pairs[k].0 == name
  }

  /** No pair renames to a name that it or a later pair renames again. */
  predicate NoChains(pairs: seq<(string, string)>) {
    forall i, j :: 0 <= i <= j < |pairs| ==> pairs[i].1 != pairs[j].0
  }

  lemma {:induction false} LookupNonSource(pairs: seq<(string, string)>, name: string)
    requires !IsSource(pairs, name)
    ensures Lookup(pairs, name) == name
  {
    if |pairs| > 0 {
      assert !IsSource(pairs[1..], name) by {
        forall k | 0 <= k < |pairs[1..]| ensures pairs[1..][k].0 != name {
          assert pairs[1..][k] == pairs[k + 1];
        }
      }
      LookupNonSource(pairs[1..], name);
    }
  }

  /** Renaming pair by pair is the same as a single lookup when no rename
      feeds a later one, so the order of the mapping does not matter. */
  lemma {:induction false} SequentialIsLookup(pairs: seq<(string, string)>, name: string)
    requires NoChains(pairs)
    ensures RenameSequentially(name, pairs) == Lookup(pairs, name)
  {
    if |pairs| > 0 {
      var rest := pairs[1..];
      assert NoChains(rest) by {
        forall i, j | 0 <= i <= j < |rest| ensures rest[i].1 != rest[j].0 {
          assert rest[i] == pairs[i + 1] && rest[j] == pairs[j + 1];
        }
      }
      var next := if name == pairs[0].0 then pairs[0].1 else name;
      SequentialIsLookup(rest, next);
      if name == pairs[0].0 {
        assert !IsSource(rest, pairs[0].1) by {
          forall k | 0 <= k < |rest| ensures rest[k].0 != pairs[0].1 {
            assert rest[k] == pairs[k + 1];
          }
        }
        LookupNonSource(rest, pairs[0].1);
      }
    }
  }

  /** The canonical name of an already lower-cased and stripped header. */
  function Canonical(name: string): string {
    Lookup(ColumnMapping, name)
  }

  lemma MappingHasNoChains()
    ensures NoChains(ColumnMapping)
  {
  }

  /** The clean-up of one header: lower-case, strip, map synonyms. */
  function NormalizeName(name: string): string {
    Canonical(Strip(Lower(name)))
  }

  /** Lower-case, strip, then apply the synonym renames to every header. */
  function NormalizeColumns(columns: seq<string>): (r: seq<string>)
    ensures |r| == |columns|
    ensures forall i :: 0 <= i < |columns| ==> r[i] == NormalizeName(columns[i])
  {
    MappingHasNoChains();
    forall name {
      SequentialIsLookup(ColumnMapping, name);
    }
    seq(|columns|, i requires 0 <= i < |columns| => RenameSequentially(Strip(Lower(columns[i])), ColumnMapping))
  }

  /** Every canonical target is already lower-case and stripped and is not
      renamed again. */
  lemma TargetsAreFinal(k: nat)
    requires k < |ColumnMapping|
    ensures IsNormal(ColumnMapping[k].1)
    ensures !IsSource(ColumnMapping, ColumnMapping[k].1)
  {
  }

  /** Cleaning up an already cleaned-up header changes nothing. */
  lemma NormalizeNameIdempotent(name: string)
    ensures NormalizeName(NormalizeName(name)) == NormalizeName(name)
  {
    var y := Strip(Lower(name));
    var once := Canonical(y);
    LowerStripNormal(name);
    if once == y {
      LowerStripNormal(y);
    } else {
      var k :| 0 <= k < |ColumnMapping| && once == ColumnMapping[k].1;
      TargetsAreFinal(k);
      LowerStripNormal(once);
      LookupNonSource(ColumnMapping, once);
    }
  }

  /** Normalising a normalised header changes nothing. */
  lemma NormalizeIdempotent(columns: seq<string>)
    ensures NormalizeColumns(NormalizeColumns(columns)) == NormalizeColumns(columns)
  {
    forall i | 0 <= i < |columns| {
      NormalizeNameIdempotent(columns[i]);
    }
  }

  function Occurrences(columns: seq<string>, name: string): (n: nat)
    ensures n <= |columns|
    ensures n == 0 <==> name !in columns
  {
    if |columns| == 0 then 0
    else (if columns[0] == name then 1 else 0) + Occurrences(columns[1..], name)
  }

  predicate HasRequired(columns: seq<string>) {
    "open" in columns && "high" in columns && "low" in columns && "close" in columns
  }

  predicate RequiredUnique(columns: seq<string>) {
    && Occurrences(columns, "open") == 1 && Occurrences(columns, "high") == 1
    && Occurrences(columns, "low") == 1 && Occurrences(columns, "close") == 1
  }

  /** Position of the first column called `name`. */
  function IndexOf(columns: seq<string>, name: string): (i: nat)
    requires name in columns
    ensures i < |columns| && columns[i] == name
    ensures forall k :: 0 <= k < i ==> columns[k] != name
  {
    if columns[0] == name then 0 else 1 + IndexOf(columns[1..], name)
  }

  /** Where the four price fields sit in a row. */
  datatype Positions = Positions(open: nat, high: nat, low: nat, close: nat)

  function CellAt(row: seq<Cell>, j: nat): Cell {
    if j < |row| then row[j] else Blank
  }

  /** The candle of a row, or `None` when any price field is not numeric. */
  function ToCandle(row: seq<Cell>, at: Positions): (c: Option<Candle>)
    ensures c.Some? <==> CellAt(row, at.open).Num? && CellAt(row, at.high).Num?
                         && CellAt(row, at.low).Num? && CellAt(row, at.close).Num?
    ensures c.Some? ==> c.value.close == CellAt(row, at.close).value && c.value.low == CellAt(row, at.low).value
                        && c.value.high == CellAt(row, at.high).value && c.value.open == CellAt(row, at.open).value
  {
    match (CellAt(row, at.open), CellAt(row, at.high), CellAt(row, at.low), CellAt(row, at.close))
    case (Num(o), Num(h), Num(l), Num(c)) => Some(Candle(o, h, l, c))
    case _ => None
  }

  /** The rows whose four price fields are numeric, as candles, in order. */
  function CleanRows(rows: seq<seq<Cell>>, at: Positions): (r: seq<Candle>)
    ensures |r| <= |rows|
    ensures forall c :: c in r ==> exists k :: 0 <= k < |rows| && ToCandle(rows[k], at) == Some(c)
    ensures forall k :: 0 <= k < |rows| && ToCandle(rows[k], at).Some? ==> ToCandle(rows[k], at).value in r
  {
    if |rows| == 0 then []
    else
      var rest := CleanRows(rows[1..], at);
      assert forall k :: 1 <= k < |rows| ==> rows[k] == rows[1..][k - 1];
      match ToCandle(rows[0], at)
      case Some(c) => [c] + rest
      case None => rest
  }

  /** Cleaning keeps chronological order: the candles of a concatenation
      are the candles of its parts, concatenated. */
  lemma {:induction false} CleanRowsAppend(a: seq<seq<Cell>>, b: seq<seq<Cell>>, at: Positions)
    ensures CleanRows(a + b, at) == CleanRows(a, at) + CleanRows(b, at)
  {
    if |a| == 0 {
      assert a + b == b;
    } else {
      assert (a + b)[1..] == a[1..] + b;
      CleanRowsAppend(a[1..], b, at);
    }
  }

  /** Why a table is refused. `ColumnNotSeries` arises when a required
      column occurs twice after normalisation: selecting it yields a frame,
      not a series, the numeric conversion raises, and the generic handler
      reports the exception. */
  datatype CsvError = InvalidFormat | ColumnNotSeries | InsufficientData

  function Message(e: CsvError): string {
    match e
    case InvalidFormat => "Invalid CSV format. Required columns: Open, High, Low, Close"
    case ColumnNotSeries => "CSV analysis failed: arg must be a list, tuple, 1-d array, or Series"
    case InsufficientData => "Insufficient data for analysis (minimum 20 candles required)"
  }

  function PricePositions(columns: seq<string>): Positions
    requires HasRequired(columns)
  {
    Positions(IndexOf(columns, "open"), IndexOf(columns, "high"),
              IndexOf(columns, "low"), IndexOf(columns, "close"))
  }

  /** The candles of the rows, read at the positions of the price columns. */
  function CandlesOf(columns: seq<string>, rows: seq<seq<Cell>>): seq<Candle>
    requires HasRequired(columns)
  {
    CleanRows(rows, PricePositions(columns))
  }

  /** The checks on a normalised header and the rows, in their order: every
      price column present, each present once, at least `MinCandles` rows
      with four numeric prices. */
  function CheckTable(columns: seq<string>, rows: seq<seq<Cell>>): (r: Result<seq<Candle>, CsvError>)
    ensures r == Err(InvalidFormat) <==> !HasRequired(columns)
    ensures r == Err(ColumnNotSeries) <==> HasRequired(columns) && !RequiredUnique(columns)
    ensures r == Err(InsufficientData) <==> RequiredUnique(columns) && |CandlesOf(columns, rows)| < MinCandles
    ensures r.Ok? ==> |r.value| >= MinCandles && r.value == CandlesOf(columns, rows)
  {
    if !HasRequired(columns) then Err(InvalidFormat)
    else if !RequiredUnique(columns) then Err(ColumnNotSeries)
    else
      var series := CleanRows(rows, PricePositions(columns));
      if |series| < MinCandles then Err(InsufficientData) else Ok(series)
  }

  /** Some raw header cleans up to `name`. */
  predicate Provides(columns: seq<string>, name: string) {
    exists i :: 0 <= i < |columns| && NormalizeName(columns[i]) == name
  }

  /** The validation steps of the tabular analysis: header clean-up, then
      the checks. The format error is decided by the raw headers alone, and
      an accepted table always has at least `MinCandles` candles. */
  function Validate(t: Table): (r: Result<seq<Candle>, CsvError>)
    ensures r == Err(InvalidFormat) <==>
              !(Provides(t.columns, "open") && Provides(t.columns, "high")
                && Provides(t.columns, "low") && Provides(t.columns, "close"))
    ensures r.Ok? ==> |r.value| >= MinCandles
  {
    var columns := NormalizeColumns(t.columns);
    forall name | name in columns || Provides(t.columns, name)
      ensures name in columns <==> Provides(t.columns, name)
    {
      if name in columns {
        var i :| 0 <= i < |columns| && columns[i] == name;
        assert NormalizeName(t.columns[i]) == name;
      }
    }
    CheckTable(columns, t.rows)
  }

  /** Cleaning up the header before the upload changes nothing: a table
      whose header is already normalised validates the same way. */
  lemma ValidateNormalisedHeader(t: Table)
    ensures Validate(Table(NormalizeColumns(t.columns), t.rows)) == Validate(t)
  {
    NormalizeIdempotent(t.columns);
  }

  /** `analyze_csv_data`: validation, then the scoring engine on the cleaned
      series, whose indicator values the indicator library computes. */
  function AnalyzeCsv(t: Table, timeframe: string, indicators: seq<Candle> -> Scoring.Indicators): (s: Signal)
    ensures s.IsError() ==> UniformError(s)
    ensures s.IsError() <==> Validate(t).Err?
    ensures s.IsError() ==> s.message == Some(Message(Validate(t).error))
    ensures !s.IsError() ==> s.analysisType == TechnicalIndicators && s.timeframe == Some(timeframe)
    ensures !s.IsError() ==> s.entry == Validate(t).value[|Validate(t).value| - 1].close
    ensures Validate(t).Ok? ==> s == Scoring.CalculateSignal(Validate(t).value, indicators(Validate(t).value), timeframe)
  {
    match Validate(t)
    case Err(e) => ErrorSignal(Message(e))
    case Ok(series) => Scoring.CalculateSignal(series, indicators(series), timeframe)
  }

  /** A header that normalises to each price column exactly once, with at
      least twenty numeric rows, always yields a technical signal, whatever
      the indicators are: NaN warm-up values are never an error. */
  lemma EnoughRowsNeverError(t: Table, timeframe: string, indicators: seq<Candle> -> Scoring.Indicators)
    ensures var columns := NormalizeColumns(t.columns);
            RequiredUnique(columns) && |CandlesOf(columns, t.rows)| >= MinCandles ==>
              AnalyzeCsv(t, timeframe, indicators).analysisType == TechnicalIndicators
  {
  }

  /** Nineteen numeric rows are one too few. */
  lemma NineteenRowsInsufficient(t: Table, timeframe: string, indicators: seq<Candle> -> Scoring.Indicators)
    ensures var columns := NormalizeColumns(t.columns);
            RequiredUnique(columns) && |CandlesOf(columns, t.rows)| == 19 ==>
              AnalyzeCsv(t, timeframe, indicators) == ErrorSignal(Message(InsufficientData))
  {
  }

  /** A table without any column that normalises to "low" is rejected as
      malformed, before any row is looked at. */
  lemma MissingLowInvalid(t: Table, timeframe: string, indicators: seq<Candle> -> Scoring.Indicators)
    requires forall i :: 0 <= i < |t.columns| ==> NormalizeName(t.columns[i]) != "low"
    ensures AnalyzeCsv(t, timeframe, indicators) == ErrorSignal(Message(InvalidFormat))
  {
    assert "low" !in NormalizeColumns(t.columns);
  }
}

=== FILE: domain.dfy ===
/** The entities the analyzer exchanges: candles in, signal records out. */
module Domain {
  import opened Wrappers

  /** One OHLC row of a cleaned price series; every field is numeric. */
  datatype Candle = Candle(open: real, high: real, low: real, close: real)

  /** A candle whose close lies between its low and its high. */
  predicate WellFormed(c: Candle) {
    c.low <= c.close <= c.high
  }

  datatype Action = Buy | Sell | Hold

  datatype AnalysisType = TechnicalIndicators | ChartPattern | AnalysisError

  /** The coarse line statistics the image path derives from a chart. */
  datatype PatternFlags = PatternFlags(trendLines: nat, bullish: bool, bearish: bool)

  /** The explanatory part of a signal: the indicator readings it was based
      on (absent readings are NaN), the image pattern flags, or nothing for
      an error record. */
  datatype Details =
    | Readings(rsi: Option<real>, macd: Option<real>, sma20: Option<real>,
               sma50: Option<real>, support: real, resistance: real)
    | Patterns(flags: PatternFlags)
    | NoDetails

  /** The record every analysis returns. `confidence` is the percentage the
      record renders as "N%"; `timeframe` is absent from error records, and
      `message` is present exactly on them. */
  datatype Signal = Signal(
    action: Action,
    entry: real,
    takeProfit: real,
    stopLoss: real,
    confidence: nat,
    timeframe: Option<string>,
    details: Details,
    analysisType: AnalysisType,
    message: Option<string>)
  {
    predicate IsError() {
      message.Some?
    }
  }

  /** The single failure shape: a HOLD with zero prices, zero confidence and
      the error analysis type, carrying a human-readable message. */
  predicate UniformError(s: Signal) {
    && s.IsError()
    && s.action == Hold
    && s.entry == 0.0 && s.takeProfit == 0.0 && s.stopLoss == 0.0
    && s.confidence == 0
    && s.timeframe.None?
    && s.details.NoDetails?
    && s.analysisType == AnalysisError
  }

  function ErrorSignal(message: string): (s: Signal)
    ensures UniformError(s)
    ensures s.message == Some(message)
  {
    Signal(Hold, 0.0, 0.0, 0.0, 0, None, NoDetails, AnalysisError, Some(message))
  }
}

=== FILE: levels.dfy ===
/** Support and resistance: the extremes of the most recent candles. */
module Levels {
  import opened Wrappers
  import opened Domain

  /** Number of most recent candles the levels are taken over. */
  const Lookback: nat := 20

  /** The last `min(n, |s|)` elements of `s`, like pandas' `tail(n)`. */
  function Tail<T>(s: seq<T>, n: nat): (r: seq<T>)
    ensures |r| == if |s| < n then |s| else n
    ensures forall k :: 0 <= k < |r| ==> r[k] == s[|s| - |r| + k]
  {
    if |s| <= n then s else s[|s| - n..]
  }

  function Lows(s: seq<Candle>): (r: seq<real>)
    ensures |r| == |s| && forall k :: 0 <= k < |s| ==> r[k] == s[k].low
  {
    seq(|s|, k requires 0 <= k < |s| => s[k].low)
  }

  function Highs(s: seq<Candle>): (r: seq<real>)
    ensures |r| == |s| && forall k :: 0 <= k < |s| ==> r[k] == s[k].high
  {
    seq(|s|, k requires 0 <= k < |s| => s[k].high)
  }

  /** The least element of a non-empty sequence. */
  function Min(s: seq<real>): (m: real)
    requires |s| > 0
    ensures forall k :: 0 <= k < |s| ==> m <= s[k]
    ensures exists k :: 0 <= k < |s| && m == s[k]
  {
    if |s| == 1 then s[0]
    else
      var rest := Min(s[1..]);
      assert forall k :: 1 <= k < |s| ==> s[k] == s[1..][k - 1];
      if s[0] <= rest then s[0] else rest
  }

  /** The greatest element of a non-empty sequence. */
  function Max(s: seq<real>): (m: real)
    requires |s| > 0
    ensures forall k :: 0 <= k < |s| ==> s[k] <= m
    ensures exists k :: 0 <= k < |s| && m == s[k]
  {
    if |s| == 1 then s[0]
    else
      var rest := Max(s[1..]);
      assert forall k :: 1 <= k < |s| ==> s[k] == s[1..][k - 1];
      if s[0] >= rest then s[0] else rest
  }

  /** Support is the lowest low and resistance the highest high of the last
      `Lookback` candles (all of them when there are fewer). An empty series
      has no levels (pandas yields NaN). */
  function FindSupportResistance(s: seq<Candle>): (r: Option<(real, real)>)
    ensures r.None? <==> |s| == 0
    ensures r.Some? ==> forall k :: |s| - Lookback <= k < |s| && 0 <= k ==>
                          r.value.0 <= s[k].low && s[k].high <= r.value.1
    ensures r.Some? ==> exists k :: |s| - Lookback <= k < |s| && 0 <= k && r.value.0 == s[k].low
    ensures r.Some? ==> exists k :: |s| - Lookback <= k < |s| && 0 <= k && r.value.1 == s[k].high
  {
    if |s| == 0 then None
    else
      var w := Tail(s, Lookback);
      var support := Min(Lows(w));
      var resistance := Max(Highs(w));
      assert forall k :: |s| - Lookback <= k < |s| && 0 <= k ==> s[k] == w[k - (|s| - |w|)];
      Some((support, resistance))
  }

  /** When the last candle is well formed, support lies at or below its
      close and resistance at or above it. */
  lemma LevelsBracketLastClose(s: seq<Candle>)
    requires |s| > 0 && WellFormed(s[|s| - 1])
    ensures FindSupportResistance(s).Some?
    ensures FindSupportResistance(s).value.0 <= s[|s| - 1].close <= FindSupportResistance(s).value.1
  {
  }
}

=== FILE: risk.dfy ===
/** The position-size calculator: how many units to trade so that being
    stopped out loses a chosen percentage of the account. */
module Risk {

  function Abs(x: real): (r: real)
    ensures r >= 0.0 && (r == x || r == -x)
  {
    if x < 0.0 then -x else x
  }

  /** Amount of the account put at risk. */
  function RiskAmount(accountSize: real, riskPct: real): (amount: real)
    ensures riskPct == 100.0 ==> amount == accountSize
    ensures 100.0 * amount == accountSize * riskPct
  {
    accountSize * (riskPct / 100.0)
  }

  /** A positive account risking a percentage in (0, 100] puts a positive
      amount at risk and never more than the whole account. */
  lemma RiskAmountBounds(accountSize: real, riskPct: real)
    requires accountSize > 0.0 && 0.0 < riskPct <= 100.0
    ensures 0.0 < RiskAmount(accountSize, riskPct) <= accountSize
  {
    var f := riskPct / 100.0;
    assert 0.0 < f <= 1.0;
    assert accountSize - accountSize * f == accountSize * (1.0 - f);
    assert accountSize * (1.0 - f) >= 0.0;
  }

  /** Unrounded position size: losing `|stopLoss|` on each unit loses
      exactly the risked amount. A zero stop distance divides by zero. */
  function PositionSize(accountSize: real, stopLoss: real, riskPct: real): (size: real)
    requires stopLoss != 0.0
    ensures size * Abs(stopLoss) == RiskAmount(accountSize, riskPct)
  {
    RiskAmount(accountSize, riskPct) / Abs(stopLoss)
  }

  /** Only the distance to the stop matters, not its sign. */
  lemma SignIndependent(accountSize: real, stopLoss: real, riskPct: real)
    requires stopLoss != 0.0
    ensures PositionSize(accountSize, stopLoss, riskPct) == PositionSize(accountSize, -stopLoss, riskPct)
  {
  }

  /** Non-negative stakes give a non-negative size. */
  lemma SizeNonNegative(accountSize: real, stopLoss: real, riskPct: real)
    requires stopLoss != 0.0 && accountSize >= 0.0 && riskPct >= 0.0
    ensures PositionSize(accountSize, stopLoss, riskPct) >= 0.0
  {
    assert RiskAmount(accountSize, riskPct) >= 0.0;
  }

  /** A larger account never means a smaller position. */
  lemma MonotoneInAccount(a: real, a': real, stopLoss: real, riskPct: real)
    requires stopLoss != 0.0 && riskPct >= 0.0 && a <= a'
    ensures PositionSize(a, stopLoss, riskPct) <= PositionSize(a', stopLoss, riskPct)
  {
    var d := Abs(stopLoss);
    var p, p' := PositionSize(a, stopLoss, riskPct), PositionSize(a', stopLoss, riskPct);
    assert 100.0 * (RiskAmount(a', riskPct) - RiskAmount(a, riskPct)) == (a' - a) * riskPct;
    ProductSign(a' - a, riskPct);
    assert (p' - p) * d == RiskAmount(a', riskPct) - RiskAmount(a, riskPct);
    ProductSign(p' - p, d);
  }

  /** A larger risk percentage never means a smaller position. */
  lemma MonotoneInRisk(accountSize: real, stopLoss: real, r: real, r': real)
    requires stopLoss != 0.0 && accountSize >= 0.0 && r <= r'
    ensures PositionSize(accountSize, stopLoss, r) <= PositionSize(accountSize, stopLoss, r')
  {
    var d := Abs(stopLoss);
    var p, p' := PositionSize(accountSize, stopLoss, r), PositionSize(accountSize, stopLoss, r');
    assert 100.0 * (RiskAmount(accountSize, r') - RiskAmount(accountSize, r)) == accountSize * (r' - r);
    ProductSign(accountSize, r' - r);
    assert (p' - p) * d == RiskAmount(accountSize, r') - RiskAmount(accountSize, r);
    ProductSign(p' - p, d);
  }

  /** A product with a positive factor has the other factor's sign. */
  lemma ProductSign(x: real, y: real)
    ensures x >= 0.0 && y >= 0.0 ==> x * y >= 0.0
    ensures y > 0.0 && x * y >= 0.0 ==> x >= 0.0
  {
    if y > 0.0 && x < 0.0 {
      assert (-x) * y > 0.0;
    }
  }

  /** A wider stop never means a larger position. */
  lemma AntitoneInStop(accountSize: real, s: real, s': real, riskPct: real)
    requires s != 0.0 && Abs(s) <= Abs(s') && accountSize >= 0.0 && riskPct >= 0.0
    ensures PositionSize(accountSize, s', riskPct) <= PositionSize(accountSize, s, riskPct)
  {
    var amount := RiskAmount(accountSize, riskPct);
    var d, d' := Abs(s), Abs(s');
    var p := PositionSize(accountSize, s, riskPct);
    var p' := PositionSize(accountSize, s', riskPct);
    ProductSign(accountSize, riskPct);
    assert amount >= 0.0;
    assert p * d == amount && p' * d' == amount;
    ProductSign(p', d');
    ProductSign(p', d' - d);
    assert p' * d' - p' * d == p' * (d' - d);
    assert (p - p') * d == amount - p' * d;
    ProductSign(p - p', d);
  }
}

=== FILE: scoring.dfy ===
/** The signal scoring engine of the tabular path: six rules each cast at
    most one vote, the raw vote counts decide the action, the winning count
    sets the confidence, and the action sets the price targets. */
module Scoring {
  import opened Wrappers
  import opened Domain
  import Levels

  /** The last value of each indicator series; `None` stands for NaN, which
      is what a series yields before its window has warmed up. */
  datatype Indicators = Indicators(
    sma20: Option<real>, sma50: Option<real>,
    ema12: Option<real>, ema26: Option<real>,
    rsi: Option<real>,
    macd: Option<real>, macdSignal: Option<real>,
    bbUpper: Option<real>, bbLower: Option<real>, bbMiddle: Option<real>,
    stochK: Option<real>, stochD: Option<real>)

  /** `a > b` under NaN semantics: false whenever either side is NaN. */
  predicate Above(a: Option<real>, b: Option<real>) {
    a.Some? && b.Some? && a.value > b.value
  }

  /** `a < b` under NaN semantics: false whenever either side is NaN. */
  predicate Below(a: Option<real>, b: Option<real>) {
    a.Some? && b.Some? && a.value < b.value
  }

  /** `|price - level| / price < 0.01`. A zero price divides to infinity or
      NaN, so the comparison is false; a negative price makes the left side
      non-positive, so it is true. */
  predicate Near(price: real, level: real) {
    price != 0.0 && (if price >= level then price - level else level - price) / price < 0.01
  }

  datatype Vote = BuyVote | SellVote | NoVote

  function TrendVote(ind: Indicators): Vote {
    if Above(ind.sma20, ind.sma50) && Above(ind.ema12, ind.ema26) then BuyVote
    else if Below(ind.sma20, ind.sma50) && Below(ind.ema12, ind.ema26) then SellVote
    else NoVote
  }

  function RsiVote(ind: Indicators): Vote {
    if Below(ind.rsi, Some(30.0)) then BuyVote
    else if Above(ind.rsi, Some(70.0)) then SellVote
    else NoVote
  }

  function MacdVote(ind: Indicators): Vote {
    if Above(ind.macd, ind.macdSignal) && Above(ind.macd, Some(0.0)) then BuyVote
    else if Below(ind.macd, ind.macdSignal) && Below(ind.macd, Some(0.0)) then SellVote
    else NoVote
  }

  function BollingerVote(price: real, ind: Indicators): Vote {
    if Below(Some(price), ind.bbLower) then BuyVote
    else if Above(Some(price), ind.bbUpper) then SellVote
    else NoVote
  }

  function StochasticVote(ind: Indicators): Vote {
    if Below(ind.stochK, Some(20.0)) && Below(ind.stochD, Some(20.0)) then BuyVote
    else if Above(ind.stochK, Some(80.0)) && Above(ind.stochD, Some(80.0)) then SellVote
    else NoVote
  }

  function ProximityVote(price: real, support: real, resistance: real): Vote {
    if Near(price, support) then BuyVote
    else if Near(price, resistance) then SellVote
    else NoVote
  }

  /** The votes of the six rules, in the order they are evaluated. */
  function Votes(price: real, ind: Indicators, support: real, resistance: real): seq<Vote> {
    [ TrendVote(ind), RsiVote(ind), MacdVote(ind), BollingerVote(price, ind),
      StochasticVote(ind), ProximityVote(price, support, resistance) ]
  }

  function Count(votes: seq<Vote>, v: Vote): (n: nat)
    ensures n <= |votes|
  {
    if |votes| == 0 then 0
    else (if votes[0] == v then 1 else 0) + Count(votes[1..], v)
  }

  /** A vote nobody cast has count zero. */
  lemma {:induction false} CountAbsent(votes: seq<Vote>, v: Vote)
    requires forall k :: 0 <= k < |votes| ==> votes[k] != v
    ensures Count(votes, v) == 0
  {
    if |votes| > 0 {
      CountAbsent(votes[1..], v);
    }
  }

  /** Buy and sell votes are disjoint, so together they never exceed the
      number of rules. */
  lemma {:induction false} CountsBounded(votes: seq<Vote>)
    ensures Count(votes, BuyVote) + Count(votes, SellVote) <= |votes|
  {
    if |votes| > 0 {
      CountsBounded(votes[1..]);
    }
  }

  lemma {:induction false} CountAppend(a: seq<Vote>, b: seq<Vote>, v: Vote)
    ensures Count(a + b, v) == Count(a, v) + Count(b, v)
  {
    if |a| == 0 {
      assert a + b == b;
    } else {
      assert (a + b)[1..] == a[1..] + b;
      CountAppend(a[1..], b, v);
    }
  }

  /** Replacing one vote by a buy vote never lowers the buy count and never
      raises the sell count. */
  lemma {:induction false} CountBuyUpgrade(a: seq<Vote>, b: seq<Vote>, previous: Vote)
    ensures Count(a + [BuyVote] + b, BuyVote) >= Count(a + [previous] + b, BuyVote)
    ensures Count(a + [BuyVote] + b, SellVote) <= Count(a + [previous] + b, SellVote)
  {
    CountAppend(a + [BuyVote], b, BuyVote);
    CountAppend(a + [previous], b, BuyVote);
    CountAppend(a, [BuyVote], BuyVote);
    CountAppend(a, [previous], BuyVote);
    CountAppend(a + [BuyVote], b, SellVote);
    CountAppend(a + [previous], b, SellVote);
    CountAppend(a, [BuyVote], SellVote);
    CountAppend(a, [previous], SellVote);
  }

  function BuyCount(price: real, ind: Indicators, support: real, resistance: real): nat {
    Count(Votes(price, ind, support, resistance), BuyVote)
  }

  function SellCount(price: real, ind: Indicators, support: real, resistance: real): nat {
    Count(Votes(price, ind, support, resistance), SellVote)
  }

  /** The action the raw vote counts select: a strict majority of one
      direction wins, a tie (including no votes at all) holds. */
  function Decide(buys: nat, sells: nat): (a: Action)
    ensures a == Buy <==> buys > sells
    ensures a == Sell <==> sells > buys
    ensures a == Hold <==> buys == sells
  {
    if buys > sells then Buy
    else if sells > buys then Sell
    else Hold
  }

  /** Swapping the two counts swaps BUY and SELL and keeps HOLD. */
  lemma DecideMirror(buys: nat, sells: nat)
    ensures Decide(buys, sells) == Buy <==> Decide(sells, buys) == Sell
    ensures Decide(buys, sells) == Hold <==> Decide(sells, buys) == Hold
  {
  }

  const ConfidenceCap: nat := 95
  const HoldConfidence: nat := 50

  /** Confidence of a directional signal with `winning` votes: 60 plus 8 per
      vote, capped at 95. */
  function DirectionalConfidence(winning: nat): (c: nat)
    ensures c <= ConfidenceCap
    ensures winning >= 1 ==> 68 <= c
    ensures c == ConfidenceCap <==> winning >= 5
    ensures winning < 5 ==> c == 60 + 8 * winning
  {
    if 60 + 8 * winning < ConfidenceCap then 60 + 8 * winning else ConfidenceCap
  }

  /** More winning votes never mean less confidence. */
  lemma ConfidenceMonotone(k: nat, k': nat)
    requires k <= k'
    ensures DirectionalConfidence(k) <= DirectionalConfidence(k')
  {
  }

  /** The confidence that goes with an action and the two vote counts. */
  function Confidence(buys: nat, sells: nat): (c: nat)
    ensures Decide(buys, sells) == Hold ==> c == HoldConfidence
    ensures Decide(buys, sells) == Buy ==> c == DirectionalConfidence(buys)
    ensures Decide(buys, sells) == Sell ==> c == DirectionalConfidence(sells)
    ensures Decide(buys, sells) != Hold ==> 68 <= c <= 95
  {
    match Decide(buys, sells)
    case Buy => DirectionalConfidence(buys)
    case Sell => DirectionalConfidence(sells)
    case Hold => HoldConfidence
  }

  function MinR(a: real, b: real): real { if b < a then b else a }
  function MaxR(a: real, b: real): real { if b > a then b else a }

  /** Take-profit and stop-loss for an action entered at `entry`. A BUY takes
      profit at 2% up or at resistance, whichever is nearer, and stops at
      1.5% down or at support, whichever is nearer; a SELL mirrors this with
      support as target and resistance as stop; a HOLD puts both at entry. */
  function Targets(action: Action, entry: real, support: real, resistance: real): (r: (real, real))
    ensures action == Buy ==>
      && r.0 <= resistance && r.0 <= entry * 1.02 && (r.0 == resistance || r.0 == entry * 1.02)
      && r.1 >= support && r.1 >= entry * 0.985 && (r.1 == support || r.1 == entry * 0.985)
    ensures action == Sell ==>
      && r.0 >= support && r.0 >= entry * 0.98 && (r.0 == support || r.0 == entry * 0.98)
      && r.1 <= resistance && r.1 <= entry * 1.015 && (r.1 == resistance || r.1 == entry * 1.015)
    ensures action == Hold ==> r == (entry, entry)
  {
    match action
    case Buy => (MinR(resistance, entry * 1.02), MaxR(support, entry * 0.985))
    case Sell => (MaxR(support, entry * 0.98), MinR(resistance, entry * 1.015))
    case Hold => (entry, entry)
  }

  /** With a positive entry strictly between support and resistance, a BUY
      risks downwards and targets upwards, and a SELL the other way round. */
  lemma TargetsStrictOrdering(action: Action, entry: real, support: real, resistance: real)
    requires 0.0 < entry && support < entry < resistance
    ensures action == Buy ==> Targets(action, entry, support, resistance).1 < entry < Targets(action, entry, support, resistance).0
    ensures action == Sell ==> Targets(action, entry, support, resistance).0 < entry < Targets(action, entry, support, resistance).1
  {
  }

  /** The same ordering, non-strict, when the entry may touch a level. */
  lemma TargetsOrdering(action: Action, entry: real, support: real, resistance: real)
    requires 0.0 < entry && support <= entry <= resistance
    ensures action == Buy ==> Targets(action, entry, support, resistance).1 <= entry <= Targets(action, entry, support, resistance).0
    ensures action == Sell ==> Targets(action, entry, support, resistance).0 <= entry <= Targets(action, entry, support, resistance).1
  {
  }

  /** The signal built from the latest indicator values, the current price
      and the support/resistance levels. */
  function GenerateSignal(price: real, ind: Indicators, support: real, resistance: real,
                          timeframe: string): (s: Signal)
    ensures !s.IsError() && s.analysisType == TechnicalIndicators
    ensures s.timeframe == Some(timeframe)
    ensures s.entry == price
    ensures s.action == Buy <==> BuyCount(price, ind, support, resistance) > SellCount(price, ind, support, resistance)
    ensures s.action == Sell <==> SellCount(price, ind, support, resistance) > BuyCount(price, ind, support, resistance)
    ensures s.action == Hold ==> s.confidence == HoldConfidence && s.takeProfit == price && s.stopLoss == price
    ensures s.action != Hold ==> 68 <= s.confidence <= ConfidenceCap
    ensures s.action == Buy ==> s.confidence == DirectionalConfidence(BuyCount(price, ind, support, resistance))
    ensures s.action == Sell ==> s.confidence == DirectionalConfidence(SellCount(price, ind, support, resistance))
    ensures (s.takeProfit, s.stopLoss) == Targets(s.action, price, support, resistance)
    ensures s.details == Readings(ind.rsi, ind.macd, ind.sma20, ind.sma50, support, resistance)
  {
    var buys := BuyCount(price, ind, support, resistance);
    var sells := SellCount(price, ind, support, resistance);
    var action := Decide(buys, sells);
    var (tp, sl) := Targets(action, price, support, resistance);
    Signal(action, price, tp, sl, Confidence(buys, sells), Some(timeframe),
           Readings(ind.rsi, ind.macd, ind.sma20, ind.sma50, support, resistance),
           TechnicalIndicators, None)
  }

  /** `_calculate_indicators`: the current price is the last close and the
      levels come from the series; the indicator values are supplied by the
      indicator library. */
  function CalculateSignal(series: seq<Candle>, ind: Indicators, timeframe: string): (s: Signal)
    requires |series| > 0
    ensures !s.IsError() && s.analysisType == TechnicalIndicators
    ensures s.entry == series[|series| - 1].close
    ensures s.details.Readings?
    ensures s.details.support == Levels.FindSupportResistance(series).value.0
    ensures s.details.resistance == Levels.FindSupportResistance(series).value.1
    ensures var lv := Levels.FindSupportResistance(series).value;
            var close := series[|series| - 1].close;
            && s.action == Decide(BuyCount(close, ind, lv.0, lv.1), SellCount(close, ind, lv.0, lv.1))
            && s.confidence == Confidence(BuyCount(close, ind, lv.0, lv.1), SellCount(close, ind, lv.0, lv.1))
            && (s.takeProfit, s.stopLoss) == Targets(s.action, close, lv.0, lv.1)
  {
    var levels := Levels.FindSupportResistance(series).value;
    GenerateSignal(series[|series| - 1].close, ind, levels.0, levels.1, timeframe)
  }

  /** Each of the six rules casts at most one vote. */
  lemma AtMostSixVotes(price: real, ind: Indicators, support: real, resistance: real)
    ensures BuyCount(price, ind, support, resistance) + SellCount(price, ind, support, resistance) <= 6
  {
    CountsBounded(Votes(price, ind, support, resistance));
  }

  /** The trend rule buys when both fast averages lie above their slow
      partners and sells when both lie below; a NaN average silences it. */
  lemma TrendRule(ind: Indicators)
    ensures TrendVote(ind) == BuyVote <==>
              && ind.sma20.Some? && ind.sma50.Some? && ind.ema12.Some? && ind.ema26.Some?
              && ind.sma20.value > ind.sma50.value && ind.ema12.value > ind.ema26.value
    ensures TrendVote(ind) == SellVote <==>
              && ind.sma20.Some? && ind.sma50.Some? && ind.ema12.Some? && ind.ema26.Some?
              && ind.sma20.value < ind.sma50.value && ind.ema12.value < ind.ema26.value
  {
  }

  /** The RSI rule buys below 30 and sells above 70, both bounds exclusive. */
  lemma RsiRule(ind: Indicators)
    ensures RsiVote(ind) == BuyVote <==> ind.rsi.Some? && ind.rsi.value < 30.0
    ensures RsiVote(ind) == SellVote <==> ind.rsi.Some? && ind.rsi.value > 70.0
  {
  }

  /** The MACD rule buys when the line is above its signal and above zero,
      and sells when it is below both. */
  lemma MacdRule(ind: Indicators)
    ensures MacdVote(ind) == BuyVote <==>
              ind.macd.Some? && ind.macdSignal.Some? && ind.macd.value > ind.macdSignal.value && ind.macd.value > 0.0
    ensures MacdVote(ind) == SellVote <==>
              ind.macd.Some? && ind.macdSignal.Some? && ind.macd.value < ind.macdSignal.value && ind.macd.value < 0.0
  {
  }

  /** The Bollinger rule buys below the lower band; above the upper band it
      sells, unless the lower-band test already voted. The two bands are read
      independently, so one NaN band leaves the other test live. */
  lemma BollingerRule(price: real, ind: Indicators)
    ensures BollingerVote(price, ind) == BuyVote <==> ind.bbLower.Some? && price < ind.bbLower.value
    ensures BollingerVote(price, ind) == SellVote <==>
              !(ind.bbLower.Some? && price < ind.bbLower.value) && ind.bbUpper.Some? && price > ind.bbUpper.value
  {
  }

  /** The stochastic rule buys when both lines are below 20 and sells when
      both are above 80. */
  lemma StochasticRule(ind: Indicators)
    ensures StochasticVote(ind) == BuyVote <==>
              ind.stochK.Some? && ind.stochD.Some? && ind.stochK.value < 20.0 && ind.stochD.value < 20.0
    ensures StochasticVote(ind) == SellVote <==>
              ind.stochK.Some? && ind.stochD.Some? && ind.stochK.value > 80.0 && ind.stochD.value > 80.0
  {
  }

  /** Multiplying by a positive factor keeps the sign. */
  lemma NegativeByPositive(x: real, p: real)
    requires p > 0.0
    ensures x * p < 0.0 <==> x < 0.0
  {
    if x < 0.0 {
      assert -x * p > 0.0;
    } else {
      assert x * p >= 0.0;
    }
  }

  /** For a positive price, "near" means the level lies strictly within 1%
      of the price on either side. A zero price is never near anything, and
      a negative price is near every level. */
  lemma NearMeaning(price: real, level: real)
    ensures price > 0.0 ==> (Near(price, level) <==> price * 0.99 < level < price * 1.01)
    ensures price == 0.0 ==> !Near(price, level)
    ensures price < 0.0 ==> Near(price, level)
  {
    var d := if price >= level then price - level else level - price;
    assert d >= 0.0;
    if price > 0.0 {
      var q := d / price;
      assert q * price == d;
      assert Near(price, level) <==> q < 0.01;
      var gap := (q - 0.01) * price;
      assert gap == d - price * 0.01;
      NegativeByPositive(q - 0.01, price);
      assert d < price * 0.01 <==> price * 0.99 < level < price * 1.01;
    } else if price < 0.0 {
      assert d / price <= 0.0 by {
        assert (d / price) * price == d;
      }
    }
  }

  /** The proximity rule buys near support; near resistance it sells, unless
      the support test already voted. */
  lemma ProximityRule(price: real, support: real, resistance: real)
    ensures ProximityVote(price, support, resistance) == BuyVote <==> Near(price, support)
    ensures ProximityVote(price, support, resistance) == SellVote <==> !Near(price, support) && Near(price, resistance)
  {
  }

  /** The support test comes first, so a price within 1% of both levels
      counts as near support only. */
  lemma NearBothLevelsVotesBuy(price: real, support: real, resistance: real)
    requires Near(price, support) && Near(price, resistance)
    ensures ProximityVote(price, support, resistance) == BuyVote
  {
  }

  /** An indicator that is NaN silences every rule that reads it: neither
      direction's comparison can hold, so the rule abstains. */
  lemma AbsentIndicatorAbstains(price: real, ind: Indicators)
    ensures (ind.sma20.None? || ind.sma50.None? || ind.ema12.None? || ind.ema26.None?) ==> TrendVote(ind) == NoVote
    ensures ind.rsi.None? ==> RsiVote(ind) == NoVote
    ensures (ind.macd.None? || ind.macdSignal.None?) ==> MacdVote(ind) == NoVote
    ensures (ind.bbLower.None? && ind.bbUpper.None?) ==> BollingerVote(price, ind) == NoVote
    ensures (ind.stochK.None? || ind.stochD.None?) ==> StochasticVote(ind) == NoVote
  {
  }

  /** With every indicator NaN only the proximity rule can vote, so the
      result is a single-vote BUY or SELL at 68, or a HOLD. */
  lemma NoIndicatorsOnlyProximity(price: real, support: real, resistance: real, timeframe: string)
    ensures var none := Indicators(None, None, None, None, None, None, None, None, None, None, None, None);
            var s := GenerateSignal(price, none, support, resistance, timeframe);
            && (s.action == Buy <==> Near(price, support))
            && (s.action == Sell <==> !Near(price, support) && Near(price, resistance))
            && (s.action != Hold ==> s.confidence == 68)
  {
    var none := Indicators(None, None, None, None, None, None, None, None, None, None, None, None);
    var v := Votes(price, none, support, resistance);
    assert v == v[..5] + [v[5]];
    CountAbsent(v[..5], BuyVote);
    CountAbsent(v[..5], SellVote);
    CountAppend(v[..5], [v[5]], BuyVote);
    CountAppend(v[..5], [v[5]], SellVote);
    assert Count([v[5]], BuyVote) == if v[5] == BuyVote then 1 else 0;
    assert Count([v[5]], SellVote) == if v[5] == SellVote then 1 else 0;
  }

  /** Turning one rule's vote into a BUY vote keeps a BUY a BUY and never
      lowers its confidence. */
  lemma {:induction false} ExtraBuyVoteKeepsBuy(a: seq<Vote>, b: seq<Vote>, previous: Vote)
    requires Decide(Count(a + [previous] + b, BuyVote), Count(a + [previous] + b, SellVote)) == Buy
    ensures Decide(Count(a + [BuyVote] + b, BuyVote), Count(a + [BuyVote] + b, SellVote)) == Buy
    ensures Confidence(Count(a + [previous] + b, BuyVote), Count(a + [previous] + b, SellVote))
            <= Confidence(Count(a + [BuyVote] + b, BuyVote), Count(a + [BuyVote] + b, SellVote))
  {
    CountBuyUpgrade(a, b, previous);
    ConfidenceMonotone(Count(a + [previous] + b, BuyVote), Count(a + [BuyVote] + b, BuyVote));
  }

  /** Trend and RSI agree on BUY and nothing else votes: two votes, BUY at 76. */
  lemma TwoBuyVotesExample()
    ensures var ind := Indicators(Some(110.0), Some(100.0), Some(105.0), Some(100.0), Some(25.0),
                                  Some(-1.0), Some(-2.0), Some(120.0), Some(90.0), Some(105.0),
                                  Some(50.0), Some(50.0));
            var s := GenerateSignal(100.0, ind, 90.0, 110.0, "1h");
            s.action == Buy && s.confidence == 76 && s.takeProfit == 102.0 && s.stopLoss == 98.5
  {
  }

  /** On a cleaned series whose last candle is well formed and whose close
      is positive, a BUY stops at or below the entry and targets at or above
      it, and a SELL the other way round. */
  lemma SignalTargetsOrdered(series: seq<Candle>, ind: Indicators, timeframe: string)
    requires |series| > 0 && WellFormed(series[|series| - 1]) && series[|series| - 1].close > 0.0
    ensures var s := CalculateSignal(series, ind, timeframe);
            && (s.action == Buy ==> s.stopLoss <= s.entry <= s.takeProfit)
            && (s.action == Sell ==> s.takeProfit <= s.entry <= s.stopLoss)
  {
    Levels.LevelsBracketLastClose(series);
    var levels := Levels.FindSupportResistance(series).value;
    var price := series[|series| - 1].close;
    TargetsOrdering(Decide(BuyCount(price, ind, levels.0, levels.1), SellCount(price, ind, levels.0, levels.1)),
                    price, levels.0, levels.1);
  }
}

=== FILE: text.dfy ===
/** The string operations the analyzer applies to CSV headers and upload
    file names: lower-casing and stripping surrounding whitespace. */
module Text {

  /** The characters Python's `str.strip()` removes (those for which
      `str.isspace()` holds). */
  predicate IsSpace(c: char) {
    || c in {' ', '\t', '\n', '\r', '\U{000B}', '\U{000C}', '\U{001C}', '\U{001D}',
             '\U{001E}', '\U{001F}', '\U{0085}', '\U{00A0}', '\U{1680}', '\U{2028}',
             '\U{2029}', '\U{202F}', '\U{205F}', '\U{3000}'}
    || '\U{2000}' <= c <= '\U{200A}'
  }

  predicate IsUpper(c: char) {
    'A' <= c <= 'Z'
  }

  function LowerChar(c: char): char {
    if IsUpper(c) then (c as int - 'A' as int + 'a' as int) as char else c
  }

  /** Lower-casing of the ASCII letters. */
  function Lower(s: string): (r: string)
    ensures |r| == |s|
    ensures forall i :: 0 <= i < |s| ==> r[i] == LowerChar(s[i])
  {
    seq(|s|, i requires 0 <= i < |s| => LowerChar(s[i]))
  }

  /** Number of whitespace characters at the start of `s`. */
  function LeadingSpaces(s: string): (n: nat)
    ensures n <= |s|
    ensures forall k :: 0 <= k < n ==> IsSpace(s[k])
    ensures n < |s| ==> !IsSpace(s[n])
  {
    if |s| > 0 && IsSpace(s[0]) then 1 + LeadingSpaces(s[1..]) else 0
  }

  /** Number of whitespace characters at the end of `s`. */
  function TrailingSpaces(s: string): (n: nat)
    ensures n <= |s|
    ensures forall k :: |s| - n <= k < |s| ==> IsSpace(s[k])
    ensures n < |s| ==> !IsSpace(s[|s| - n - 1])
  {
    if |s| > 0 && IsSpace(s[|s| - 1]) then 1 + TrailingSpaces(s[..|s| - 1]) else 0
  }

  /** Python's `str.strip()`: the longest infix of `s` that neither starts
      nor ends with whitespace, obtained by removing only whitespace. */
  function Strip(s: string): (r: string)
    ensures |r| <= |s|
    ensures r == [] || (!IsSpace(r[0]) && !IsSpace(r[|r| - 1]))
    ensures LeadingSpaces(s) + |r| <= |s|
    ensures forall k :: 0 <= k < |r| ==> r[k] == s[LeadingSpaces(s) + k]
    ensures forall k :: LeadingSpaces(s) + |r| <= k < |s| ==> IsSpace(s[k])
  {
    var t := s[LeadingSpaces(s)..];
    var r := t[..|t| - TrailingSpaces(t)];
    assert r == s[LeadingSpaces(s)..LeadingSpaces(s) + |r|];
    r
  }

  /** A string no further lower-casing or stripping changes. */
  predicate IsNormal(s: string) {
    && (forall i :: 0 <= i < |s| ==> !IsUpper(s[i]))
    && (s == [] || (!IsSpace(s[0]) && !IsSpace(s[|s| - 1])))
  }

  /** Stripping removes nothing from a string that does not start or end
      with whitespace. */
  lemma {:induction false} StripOfTrimmed(s: string)
    requires s == [] || (!IsSpace(s[0]) && !IsSpace(s[|s| - 1]))
    ensures Strip(s) == s
  {
    assert LeadingSpaces(s) == 0;
    assert TrailingSpaces(s) == 0;
  }

  /** Lower-casing then stripping yields a normal string, and normalising a
      normal string changes nothing: the header clean-up is idempotent. */
  lemma {:induction false} LowerStripNormal(s: string)
    ensures IsNormal(Strip(Lower(s)))
    ensures IsNormal(s) ==> Strip(Lower(s)) == s
  {
    var l := Lower(s);
    var r := Strip(l);
    var i := LeadingSpaces(l);
    forall k | 0 <= k < |r|
      ensures !IsUpper(r[k])
    {
      assert r[k] == l[i + k] == LowerChar(s[i + k]);
    }
    if IsNormal(s) {
      assert l == s;
      StripOfTrimmed(s);
    }
  }
}

=== FILE: wrappers.dfy ===
/** Option and Result, shared by the whole model. */
module Wrappers {

  /** A value that may be absent. Used for NaN-valued indicators and
      non-numeric cells: every comparison with `None` is false, exactly as
      every comparison with NaN is false in the analyzer. */
  datatype Option<+T> = None | Some(value: T)

  /** A computation that either succeeds with a value or fails with an error. */
  datatype Result<+T, +E> = Ok(value: T) | Err(error: E)
}
